=== FILE: README.md ===
# AtomicAllocator decision and bookkeeping model

This project models the sequential policy core of nd4j's CUDA just-in-time allocator, `AtomicAllocator`. It covers:

- **Placement.** Where a new allocation goes under the `IMMEDIATE` and `DELAYED` memory models. Explicit allocation accepts only `HOST` or `DEVICE`.
- **Collector rounds.** How the host (zero-copy) and device collector loops escalate aggressiveness under memory pressure, when they skip a scan, and how long they sleep.
- **Reclamation threshold.** The formula `average / (levels - ordinal)`.
- **Tracking map.** The map from object id to allocation point, and how it changes under `freeMemory`, `purgeZeroObject`, the per-entry decisions of `seekUnusedZero` and `seekUnusedDevice`, and the write-once guard of `applyConfiguration`.

Allocator state is an immutable value made of three parts: the configuration, the `wasInitialised` flag and the tracking map. An allocation point keeps only what the decisions read:

- its status;
- whether it has a host pointer;
- whether its owning buffer is still reachable.

The memory handler and memory provider are inputs, not code:

- the handler's initial location;
- object counts and tracking ids per host bucket or per device;
- allocated bytes, which are per device for the device loop but allocator-wide for the host loop: `getAllocatedHostMemory()` takes no bucket id, so every host bucket compares the same byte count with the cap, and under host memory pressure all host buckets escalate and stop skipping together;
- the clock (`now`, `nowAfter`).

The calls the allocator makes into the handler and provider (`free`, `forget`, `purgeZeroObject`, `purgeDeviceObject`) are returned as a log of `Effect` values. They are not executed: the model assumes each returns normally and leaves the point's status and host pointer unchanged (see `FreeMemory` under Left out). The log also records `Untrack`, the removal of an id from the tracking map, so the order between map updates and outside calls is visible.

Modules:

- `Enums`: the `Aggressiveness` and `AllocationStatus` enums.
- `Tracking`: points, configuration, state, the effect log and the result type.
- `Placement`: both `allocateMemory` overloads.
- `Policy`: escalation, skip test, sleep interval and threshold.
- `Reclaim`: tracking-map transitions and scans.
- `Collector`: one round of each collector loop.

### Behaviour of the code worth knowing

- **Threshold direction.** The threshold `average / (levels - ordinal)` rises with aggressiveness, because the divisor falls as the ordinal rises. At `IMMEDIATE` it equals the average, and at `PEACEFUL` it is a quarter of the average (`ThresholdNonDecreasing`, `ThresholdStrictlyIncreasing`).
- **Allocation and the map.** `allocateMemory` does not insert the new point into the tracking map in this class.
- **Order of removal.** `purgeZeroObject` removes the id from the map before the handler purges it; `freeMemory` removes it only after every provider and handler call.
- **Host scan.** A host scan stops at the first unreachable host point: it removes that point from the map, purges it and then throws.
- **Device scan.** A device scan never removes an entry from the tracking map, even after purging its device memory.
- **Repeated release.** Releasing a point twice leaves the same tracking map, but the second call reaches the provider's `free` again whenever the point held any memory (`FreeMemoryTwice`). A DEVICE point without a host pointer keeps status DEVICE after the first release and is freed on the device a second time; a point with a host pointer has its host memory freed and forgotten again. This assumes, as the whole call log does, that each provider and handler call returns normally and leaves the point's status and host pointer as they were.
- **Write-once guard.** `wasInitialised` is never set in this file, so the guard never engages after construction (`ConfigurationAlwaysApplies`).
- **Collector threads.** Neither collector thread class is instantiated in this file. Nothing here starts the two loops, or the scans that only they call (lines 716, 779). The rounds model what one iteration of each loop would do once started.

The `Aggressiveness` enum declaration is not part of this model. The model uses the nd4j declaration order `PEACEFUL, REASONABLE, URGENT, IMMEDIATE`, so the number of levels is 4. The code relies only on `URGENT` coming before `IMMEDIATE` and on `IMMEDIATE` being the last level.

## Model

| member | source | states |
|---|---|---|
| Tracking.InitialState | nd4j/nd4j-backends/nd4j-backend-impls/nd4j-cuda/src/main/java/org/nd4j/jita/allocator/impl/AtomicAllocator.java:106 | a newly constructed allocator has the initialised flag down and tracks nothing |
| Placement.AllocateAt | nd4j/nd4j-backends/nd4j-backend-impls/nd4j-cuda/src/main/java/org/nd4j/jita/allocator/impl/AtomicAllocator.java:375-390 | explicit allocation succeeds exactly for HOST or DEVICE, with the requested byte count; HOST wraps the buffer's host memory, DEVICE allocates fresh memory; every other status fails with "Unable to allocate memory." |
| Placement.AllocateMemory | nd4j/nd4j-backends/nd4j-backend-impls/nd4j-cuda/src/main/java/org/nd4j/jita/allocator/impl/AtomicAllocator.java:349-361 | DELAYED always yields a host point; IMMEDIATE succeeds exactly when the handler's initial location is HOST or DEVICE and fails otherwise; a null model yields no point |
| Placement.DelayedIgnoresInitialLocation | nd4j/nd4j-backends/nd4j-backend-impls/nd4j-cuda/src/main/java/org/nd4j/jita/allocator/impl/AtomicAllocator.java:355-358 | under DELAYED the handler's initial location has no influence and allocation never fails |
| Placement.ImmediateFollowsHandler | nd4j/nd4j-backends/nd4j-backend-impls/nd4j-cuda/src/main/java/org/nd4j/jita/allocator/impl/AtomicAllocator.java:353-354 | under IMMEDIATE, allocation gives the same point or the same error as explicit allocation at the handler's initial location |
| Placement.ModelledAllocationPlacement | nd4j/nd4j-backends/nd4j-backend-impls/nd4j-cuda/src/main/java/org/nd4j/jita/allocator/impl/AtomicAllocator.java:349-390 | with a memory model set, a successful allocation always yields a point, and that point has a device side exactly under IMMEDIATE with a DEVICE initial location |
| Policy.Escalate | nd4j/nd4j-backends/nd4j-backend-impls/nd4j-cuda/src/main/java/org/nd4j/jita/allocator/impl/AtomicAllocator.java:699-708 | the effective level is the higher of the configured level and the level the load demands: IMMEDIATE past 85% of the cap, URGENT past 75% or the object ceiling; it never lowers the configured level |
| Policy.EscalateMonotoneInLoad | nd4j/nd4j-backends/nd4j-backend-impls/nd4j-cuda/src/main/java/org/nd4j/jita/allocator/impl/AtomicAllocator.java:702-708 | more objects or more memory never give a lower effective level |
| Policy.EscalateMonotoneInConfigured | nd4j/nd4j-backends/nd4j-backend-impls/nd4j-cuda/src/main/java/org/nd4j/jita/allocator/impl/AtomicAllocator.java:699-708 | a higher configured level never gives a lower effective level |
| Policy.SkippedRoundKeepsConfiguredLevel | nd4j/nd4j-backends/nd4j-backend-impls/nd4j-cuda/src/main/java/org/nd4j/jita/allocator/impl/AtomicAllocator.java:701-718 | whenever a round skips its scan (with a non-negative cap) the load caused no escalation |
| Policy.ImmediateRoundNeverSkips | nd4j/nd4j-backends/nd4j-backend-impls/nd4j-cuda/src/main/java/org/nd4j/jita/allocator/impl/AtomicAllocator.java:707-712 | a round forced to IMMEDIATE always scans |
| Policy.StaleCheckForcesScan | nd4j/nd4j-backends/nd4j-backend-impls/nd4j-cuda/src/main/java/org/nd4j/jita/allocator/impl/AtomicAllocator.java:710-712 | once 30000 ms have passed since the last scan, the round scans whatever the load |
| Policy.SkipScan | nd4j/nd4j-backends/nd4j-backend-impls/nd4j-cuda/src/main/java/org/nd4j/jita/allocator/impl/AtomicAllocator.java:710-712 | a round skips exactly when memory is under a quarter of the cap, objects are under the low-water mark and less than 30000 ms have passed since the last scan; a skipping round (non-negative cap) is below both escalation thresholds |
| Collector.HostLevel | nd4j/nd4j-backends/nd4j-backend-impls/nd4j-cuda/src/main/java/org/nd4j/jita/allocator/impl/AtomicAllocator.java:699-708 | the host level never falls below the configured host level, is at least URGENT past 500000 objects or 75% of the zero-copy cap, is IMMEDIATE past 85%, and otherwise equals the configured level |
| Collector.DeviceLevel | nd4j/nd4j-backends/nd4j-backend-impls/nd4j-cuda/src/main/java/org/nd4j/jita/allocator/impl/AtomicAllocator.java:760-771 | the device level never falls below the configured device level, is at least URGENT past 100000 objects or 75% of the device cap, is IMMEDIATE past 85%, and otherwise equals the configured level |
| Policy.SleepInterval | nd4j/nd4j-backends/nd4j-backend-impls/nd4j-cuda/src/main/java/org/nd4j/jita/allocator/impl/AtomicAllocator.java:692 | the sleep is the larger of the minimum TTL and the loop's floor: never below either, and equal to one of them |
| Policy.Divisor | nd4j/nd4j-backends/nd4j-backend-impls/nd4j-cuda/src/main/java/org/nd4j/jita/allocator/impl/AtomicAllocator.java:447 | the threshold divisor is between 1 and the number of levels, and it is 1 exactly at IMMEDIATE |
| Policy.ReclaimThreshold | nd4j/nd4j-backends/nd4j-backend-impls/nd4j-cuda/src/main/java/org/nd4j/jita/allocator/impl/AtomicAllocator.java:447-448 | threshold times divisor gives back the average; for a non-negative average the threshold lies between a quarter of the average and the average |
| Policy.ThresholdNonDecreasing | nd4j/nd4j-backends/nd4j-backend-impls/nd4j-cuda/src/main/java/org/nd4j/jita/allocator/impl/AtomicAllocator.java:447-448 | for a non-negative average the threshold never falls as the ordinal rises |
| Policy.ThresholdStrictlyIncreasing | nd4j/nd4j-backends/nd4j-backend-impls/nd4j-cuda/src/main/java/org/nd4j/jita/allocator/impl/AtomicAllocator.java:514-515 | for a positive average the threshold rises strictly with the ordinal |
| Reclaim.FreeMemory | nd4j/nd4j-backends/nd4j-backend-impls/nd4j-cuda/src/main/java/org/nd4j/jita/allocator/impl/AtomicAllocator.java:323-341 | the point's id leaves the tracking map and no other entry changes; per case, the provider frees and handler forgets are called and the final status is set (DEVICE with host pointer: two frees, ends HOST, forget DEVICE; DEVICE without: one free; other with host pointer: one free and forget HOST; other without: nothing); the removal from the map comes after all of these calls |
| Reclaim.FreeMemoryFreesEachSideOnce | nd4j/nd4j-backends/nd4j-backend-impls/nd4j-cuda/src/main/java/org/nd4j/jita/allocator/impl/AtomicAllocator.java:324-338 | the number of provider frees is one per side held (device status, host pointer), and a device-side free happens exactly for a DEVICE point |
| Reclaim.FreeMemoryPreservesWellFormed | nd4j/nd4j-backends/nd4j-backend-impls/nd4j-cuda/src/main/java/org/nd4j/jita/allocator/impl/AtomicAllocator.java:340 | releasing keeps every tracked point filed under its own id and none DEALLOCATED |
| Reclaim.FreeMemoryTwice | nd4j/nd4j-backends/nd4j-backend-impls/nd4j-cuda/src/main/java/org/nd4j/jita/allocator/impl/AtomicAllocator.java:323-341 | a second release leaves the same tracking map, yet calls free again exactly when the point held memory: a DEVICE point without a host pointer is freed on the device again, a DEVICE point with one has its host side freed and forgotten again |
| Reclaim.PurgeZeroObject | nd4j/nd4j-backends/nd4j-backend-impls/nd4j-cuda/src/main/java/org/nd4j/jita/allocator/impl/AtomicAllocator.java:410-414 | the id leaves the tracking map, no other entry changes, and exactly one handler purge is issued for that bucket and id, after the removal |
| Reclaim.ApplyConfiguration | nd4j/nd4j-backends/nd4j-backend-impls/nd4j-cuda/src/main/java/org/nd4j/jita/allocator/impl/AtomicAllocator.java:188-196 | the configuration is replaced exactly when the initialised flag is down; tracking map and flag are untouched |
| Reclaim.ApplyConfigurationLastWins | nd4j/nd4j-backends/nd4j-backend-impls/nd4j-cuda/src/main/java/org/nd4j/jita/allocator/impl/AtomicAllocator.java:189-192 | before initialisation the last configuration applied wins |
| Reclaim.ApplyConfigurationFrozen | nd4j/nd4j-backends/nd4j-backend-impls/nd4j-cuda/src/main/java/org/nd4j/jita/allocator/impl/AtomicAllocator.java:189 | once initialised, applying a configuration changes nothing |
| Reclaim.RunKeepsInitialisedFlag | nd4j/nd4j-backends/nd4j-backend-impls/nd4j-cuda/src/main/java/org/nd4j/jita/allocator/impl/AtomicAllocator.java:106 | no sequence of configure, free and purge operations changes the initialised flag |
| Reclaim.ConfigurationAlwaysApplies | nd4j/nd4j-backends/nd4j-backend-impls/nd4j-cuda/src/main/java/org/nd4j/jita/allocator/impl/AtomicAllocator.java:188-196 | starting from a new allocator, applying a configuration after any such sequence installs it |
| Reclaim.RunPreservesWellFormed | nd4j/nd4j-backends/nd4j-backend-impls/nd4j-cuda/src/main/java/org/nd4j/jita/allocator/impl/AtomicAllocator.java:323-341 | any sequence of configure, free and purge operations keeps the tracking map well formed and never adds an id |
| Reclaim.SeekUnusedZero | nd4j/nd4j-backends/nd4j-backend-impls/nd4j-cuda/src/main/java/org/nd4j/jita/allocator/impl/AtomicAllocator.java:437-494 | the host scan completes, with size 0 and the state unchanged, exactly when no tracking id names an unreachable HOST point; survivors count the reachable HOST points. Otherwise the first such point is removed from the map, then purged once, and the scan fails. Reachable entries are never touched. |
| Reclaim.SeekUnusedDeviceAsWritten | nd4j/nd4j-backends/nd4j-backend-impls/nd4j-cuda/src/main/java/org/nd4j/jita/allocator/impl/AtomicAllocator.java:503-577 | the device scan as written never changes the state; it fails at the first id that is missing from the map (null dereference) or that names an unreachable DEVICE point (after one device purge); otherwise it completes with size 0 and counts reachable entries |
| Reclaim.SeekUnusedDevice | nd4j/nd4j-backends/nd4j-backend-impls/nd4j-cuda/src/main/java/org/nd4j/jita/allocator/impl/AtomicAllocator.java:503-577 | as written, except that missing ids are skipped as the host scan skips them: it fails exactly when some id names an unreachable DEVICE point |
| Reclaim.MissingDeviceEntryCounterexample | nd4j/nd4j-backends/nd4j-backend-impls/nd4j-cuda/src/main/java/org/nd4j/jita/allocator/impl/AtomicAllocator.java:521-531 | with one tracking id absent from the map, the scan as written fails with a null dereference while the corrected scan completes |
| Collector.HostCollectorRound | nd4j/nd4j-backends/nd4j-backend-impls/nd4j-cuda/src/main/java/org/nd4j/jita/allocator/impl/AtomicAllocator.java:674-720 | a host round sleeps exactly max(TTL, 10000) and runs at the host level (HostLevel), which is the configured level whenever the round skips. It scans exactly when the skip test (SkipScan) fails. A skipped round changes nothing. lastCheck moves to the post-scan time only when the scan completes. The round fails exactly when it scans and meets an unreachable host point; it then removes and purges the first such point and nothing else. Reachable entries survive. |
| Collector.DeviceCollectorRound | nd4j/nd4j-backends/nd4j-backend-impls/nd4j-cuda/src/main/java/org/nd4j/jita/allocator/impl/AtomicAllocator.java:744-785 | the same for a device round, with sleep max(TTL, 5000), the device level (DeviceLevel) and low-water mark 500; the state is never changed, and a failing round issues exactly one device purge, for the first unreachable device point |
| Collector.SkippedHostRoundAtConfiguredLevel | nd4j/nd4j-backends/nd4j-backend-impls/nd4j-cuda/src/main/java/org/nd4j/jita/allocator/impl/AtomicAllocator.java:699-718 | a skipped host round runs at exactly the configured host level |
| Collector.SkippedDeviceRoundAtConfiguredLevel | nd4j/nd4j-backends/nd4j-backend-impls/nd4j-cuda/src/main/java/org/nd4j/jita/allocator/impl/AtomicAllocator.java:760-781 | a skipped device round runs at exactly the configured device level |

## Left out

- FreeMemory: assumes every provider `free` and handler `forget` call returns normally, so the removal from the map at the end is always reached; a native free failure that throws would leave the id tracked. It also assumes these calls leave the point's status and host pointer unchanged: the Java code re-reads the host pointer after the device free, and the model reads it once. The repeated-release facts of `FreeMemoryTwice` rest on the same assumptions.
- Escalate: memory is compared with a fraction of the cap in exact arithmetic. The Java code converts the long byte count and the cap to double, which rounds values above 2^53.
- ReclaimThreshold: computed over reals, not single-precision floats. The access averages come from ring statistics outside this model and are taken as a parameter. The scans compute the thresholds but never use them, so the scans take no aggressiveness argument.
- HostCollectorRound: reads one snapshot of the handler's counters per round. The Java code reads them several times, and they can change concurrently in between.
- DeviceCollectorRound: uses the corrected device scan (see Findings), not the one as written.
- SeekUnusedZero: the object count read at the start of the scan feeds only a debug log line and is not modelled. The element counters exist only for logging, so only the survivor count is reported.
- Null references other than the memory model and a missing tracking entry (a null point or null location passed in) are not modelled.
- The global and externals read/write locks, `synchronized`, thread creation, sleeping, interruption and the terminate flag are left out. Each loop iteration is one pure round with the clock as input.
- The Tick/Tack/Toe access protocol is left out. It appears only in comments.
- Native and library calls are left out: `OpaqueDataBuffer` construction, `NativeOpsHolder` settings in the no-argument `applyConfiguration`, and `synchronizeHostData`. They are native calls outside this class.
- Memory-handler wrappers are left out: `getPointer`, `getHostPointer`, the `memcpy` family, `tickHostWrite`/`tickDeviceWrite`, `getDeviceId`, `registerAction`, `getFlowController` and `setMemoryHandler`. Each is a single delegation to a handler whose code is not part of this model.
- `purgeDeviceObject` is only delegation to the handler, so it appears only as the `HandlerPurgeDevice` effect.
- The constant-buffer methods and `moveToConstant` are left out. They delegate to the constant handler.
- `getTotalAllocatedHostMemory` and `getTotalAllocatedDeviceMemory` are left out. Both return 0.
- The commented-out unified collector thread and the commented-out TTL-based device eviction are not modelled. They are dead code.
- The `AllocationPoint` constructor and the enum and configuration classes are not part of this model. A new point is described only by how its buffer is obtained and its byte count.

## Findings

| source | as written | input that shows it | evidently intended | confidence | as-written member | corrected member |
|---|---|---|---|---|---|---|
| nd4j/nd4j-backends/nd4j-backend-impls/nd4j-cuda/src/main/java/org/nd4j/jita/allocator/impl/AtomicAllocator.java:521-531 | `seekUnusedDevice` dereferences the looked-up point without the null check that `seekUnusedZero` has (line 458), so a device tracking id that is no longer in the tracking map throws a NullPointerException out of `seekUnusedDevice`; from the device loop (line 779, no catch) this would end the thread, but neither collector thread is constructed in this file | tracking map empty, device tracking ids [7]; a DEVICE point without a host pointer reaches this state, because `freeMemory` removes its id from the map without calling `forget` | skip ids no longer tracked, as the host scan does | medium; not executed | Reclaim.SeekUnusedDeviceAsWritten, Reclaim.MissingDeviceEntryCounterexample | Reclaim.SeekUnusedDevice |

=== FILE: collector.dfy ===
/**
  One round of each collector loop, with the clock as input: sleep, choose
  the effective level, then either skip or scan. `now` is the time read
  for the skip test and `nowAfter` the time read once the scan returns.
  A failing scan ends the loop, so its error is the round's outcome.
 */
module Collector {
  import opened Enums
  import opened Tracking
  import opened Policy
  import opened Reclaim

  /**
    What the memory handler reports to one round. The object count and the
    tracking ids are per bucket (host) or per device; the byte count is
    allocator-wide for the host loop and per device for the device loop.
   */
  datatype Load = Load(objects: int, memory: int, trackingPoints: seq<ObjectId>)

  datatype Round = Round(
    sleepMillis: int,
    level: Aggressiveness,
    scanned: bool,
    state: AllocatorState,
    effects: seq<Effect>,
    lastCheck: int,
    outcome: Result<int>)

  /**
    The level of a host round: the configured host level, raised to urgent
    past 500000 objects or 75% of the zero-copy cap, forced to immediate past 85%.
   */
  function HostLevel(c: Configuration, load: Load): (r: Aggressiveness)
    ensures Ordinal(c.hostDeallocAggressiveness) <= Ordinal(r)
    ensures load.objects > HostObjectCeiling ==> Ordinal(Urgent) <= Ordinal(r)
    ensures Above(load.memory, c.maximumZeroAllocation, 0.75) ==> Ordinal(Urgent) <= Ordinal(r)
    ensures Above(load.memory, c.maximumZeroAllocation, 0.85) ==> r == Aggressiveness.Immediate
    ensures (load.objects <= HostObjectCeiling && !Above(load.memory, c.maximumZeroAllocation, 0.75)
             && !Above(load.memory, c.maximumZeroAllocation, 0.85)) ==> r == c.hostDeallocAggressiveness
  {
    Escalate(c.hostDeallocAggressiveness, load.objects, load.memory, c.maximumZeroAllocation, HostObjectCeiling)
  }

  /**
    The level of a device round: the configured device level, raised to
    urgent past 100000 objects or 75% of the device cap, forced to immediate past 85%.
   */
  function DeviceLevel(c: Configuration, load: Load): (r: Aggressiveness)
    ensures Ordinal(c.gpuDeallocAggressiveness) <= Ordinal(r)
    ensures load.objects > DeviceObjectCeiling ==> Ordinal(Urgent) <= Ordinal(r)
    ensures Above(load.memory, c.maximumDeviceAllocation, 0.75) ==> Ordinal(Urgent) <= Ordinal(r)
    ensures Above(load.memory, c.maximumDeviceAllocation, 0.85) ==> r == Aggressiveness.Immediate
    ensures (load.objects <= DeviceObjectCeiling && !Above(load.memory, c.maximumDeviceAllocation, 0.75)
             && !Above(load.memory, c.maximumDeviceAllocation, 0.85)) ==> r == c.gpuDeallocAggressiveness
  {
    Escalate(c.gpuDeallocAggressiveness, load.objects, load.memory, c.maximumDeviceAllocation, DeviceObjectCeiling)
  }

  /** One round of the host (zero-copy) collector of `bucketId`. */
  method HostCollectorRound(s: AllocatorState, bucketId: int, load: Load, lastCheck: int, now: int, nowAfter: int)
    returns (r: Round)
    ensures r.sleepMillis == SleepInterval(s.configuration.minimumTTLMilliseconds, HostSleepFloor)
    ensures r.sleepMillis >= HostSleepFloor && r.sleepMillis >= s.configuration.minimumTTLMilliseconds
    ensures r.level == HostLevel(s.configuration, load)
    ensures Ordinal(s.configuration.hostDeallocAggressiveness) <= Ordinal(r.level)
    ensures load.objects > HostObjectCeiling ==> Ordinal(Urgent) <= Ordinal(r.level)
    ensures Above(load.memory, s.configuration.maximumZeroAllocation, 0.85) ==> r.level == Aggressiveness.Immediate
    ensures !r.scanned && s.configuration.maximumZeroAllocation >= 0 ==> r.level == s.configuration.hostDeallocAggressiveness
    ensures r.scanned <==> !SkipScan(load.memory, load.objects, s.configuration.maximumZeroAllocation,
                                     HostLowWater, lastCheck, now)
    ensures !r.scanned ==> r.state == s && r.effects == [] && r.lastCheck == lastCheck && r.outcome == Ok(0)
    ensures r.outcome.Ok? ==> r.state == s && r.effects == []
    ensures r.scanned && r.outcome.Ok? ==> r.lastCheck == nowAfter
    ensures r.outcome.Ok? ==> r.outcome.value == 0
    ensures r.outcome.Err? ==> r.lastCheck == lastCheck && r.scanned
    ensures r.outcome.Err? <==> r.scanned && exists i :: 0 <= i < |load.trackingPoints| && DeadHost(s.allocations, load.trackingPoints[i])
    ensures r.outcome.Err? ==>
              && r.outcome.error == UnsupportedOperation(Unimplemented)
              && exists k :: 0 <= k < |load.trackingPoints| && DeadHost(s.allocations, load.trackingPoints[k])
                   && (forall j :: 0 <= j < k ==> !DeadHost(s.allocations, load.trackingPoints[j]))
                   && r.state == s.(allocations := s.allocations - {load.trackingPoints[k]})
                   && r.effects == [Untrack(load.trackingPoints[k]),
                                    HandlerPurgeZero(bucketId, load.trackingPoints[k], false)]
    ensures r.state.configuration == s.configuration && r.state.wasInitialised == s.wasInitialised
    ensures forall id :: id in s.allocations && s.allocations[id].bufferAlive ==>
              id in r.state.allocations && r.state.allocations[id] == s.allocations[id]
  {
    var c := s.configuration;
    var sleep := SleepInterval(c.minimumTTLMilliseconds, HostSleepFloor);
    var level := HostLevel(c, load);
    if SkipScan(load.memory, load.objects, c.maximumZeroAllocation, HostLowWater, lastCheck, now) {
      if c.maximumZeroAllocation >= 0 {
        SkippedHostRoundAtConfiguredLevel(c, load, lastCheck, now);
      }
      return Round(sleep, level, false, s, [], lastCheck, Ok(0));
    }
    var scan := SeekUnusedZero(s, bucketId, load.trackingPoints);
    var checked := if scan.outcome.Ok? then nowAfter else lastCheck;
    return Round(sleep, level, true, scan.state, scan.effects, checked, scan.outcome);
  }

  /** One round of the collector of device `deviceId`; the scan runs with thread id 0. */
  method DeviceCollectorRound(s: AllocatorState, deviceId: int, load: Load, lastCheck: int, now: int, nowAfter: int)
    returns (r: Round)
    ensures r.sleepMillis == SleepInterval(s.configuration.minimumTTLMilliseconds, DeviceSleepFloor)
    ensures r.sleepMillis >= DeviceSleepFloor && r.sleepMillis >= s.configuration.minimumTTLMilliseconds
    ensures r.level == DeviceLevel(s.configuration, load)
    ensures Ordinal(s.configuration.gpuDeallocAggressiveness) <= Ordinal(r.level)
    ensures load.objects > DeviceObjectCeiling ==> Ordinal(Urgent) <= Ordinal(r.level)
    ensures Above(load.memory, s.configuration.maximumDeviceAllocation, 0.85) ==> r.level == Aggressiveness.Immediate
    ensures !r.scanned && s.configuration.maximumDeviceAllocation >= 0 ==> r.level == s.configuration.gpuDeallocAggressiveness
    ensures r.scanned <==> !SkipScan(load.memory, load.objects, s.configuration.maximumDeviceAllocation,
                                     DeviceLowWater, lastCheck, now)
    ensures r.state == s
    ensures !r.scanned ==> r.effects == [] && r.lastCheck == lastCheck && r.outcome == Ok(0)
    ensures r.scanned && r.outcome.Ok? ==> r.lastCheck == nowAfter && r.effects == []
    ensures r.outcome.Ok? ==> r.outcome.value == 0
    ensures r.outcome.Err? ==> r.lastCheck == lastCheck && r.scanned
    ensures r.outcome.Err? <==> r.scanned && exists i :: 0 <= i < |load.trackingPoints| && DeadDevice(s.allocations, load.trackingPoints[i])
    ensures r.outcome.Err? ==>
              && r.outcome.error == UnsupportedOperation(Unimplemented)
              && exists k :: 0 <= k < |load.trackingPoints| && DeadDevice(s.allocations, load.trackingPoints[k])
                   && (forall j :: 0 <= j < k ==> !DeadDevice(s.allocations, load.trackingPoints[j]))
                   && r.effects == [HandlerPurgeDevice(0, deviceId, load.trackingPoints[k], false)]
  {
    var c := s.configuration;
    var sleep := SleepInterval(c.minimumTTLMilliseconds, DeviceSleepFloor);
    var level := DeviceLevel(c, load);
    if SkipScan(load.memory, load.objects, c.maximumDeviceAllocation, DeviceLowWater, lastCheck, now) {
      if c.maximumDeviceAllocation >= 0 {
        SkippedDeviceRoundAtConfiguredLevel(c, load, lastCheck, now);
      }
      return Round(sleep, level, false, s, [], lastCheck, Ok(0));
    }
    var scan := SeekUnusedDevice(s, 0, deviceId, load.trackingPoints);
    var checked := if scan.outcome.Ok? then nowAfter else lastCheck;
    return Round(sleep, level, true, scan.state, scan.effects, checked, scan.outcome);
  }

  /** A host round that skips runs at exactly the configured level. */
  lemma SkippedHostRoundAtConfiguredLevel(c: Configuration, load: Load, lastCheck: int, now: int)
    requires c.maximumZeroAllocation >= 0
    requires SkipScan(load.memory, load.objects, c.maximumZeroAllocation, HostLowWater, lastCheck, now)
    ensures HostLevel(c, load) == c.hostDeallocAggressiveness
  {
  }

  /** A device round that skips runs at exactly the configured level. */
  lemma SkippedDeviceRoundAtConfiguredLevel(c: Configuration, load: Load, lastCheck: int, now: int)
    requires c.maximumDeviceAllocation >= 0
    requires SkipScan(load.memory, load.objects, c.maximumDeviceAllocation, DeviceLowWater, lastCheck, now)
    ensures DeviceLevel(c, load) == c.gpuDeallocAggressiveness
  {
  }
}

=== FILE: enums.dfy ===
/**
  The enumerations the allocator branches on: reclamation aggressiveness
  and the location of an allocation.
 */
module Enums {

  /** Reclamation levels in declaration order; a higher ordinal reclaims more readily. */
  datatype Aggressiveness = Peaceful | Reasonable | Urgent | Immediate

  /** The number of aggressiveness levels (the length of the enum's value list). */
  const AggressivenessCount: nat := 4

  function Ordinal(a: Aggressiveness): (n: nat)
    ensures n < AggressivenessCount
    ensures a == Immediate <==> n == AggressivenessCount - 1
  {
    match a
    case Peaceful => 0
    case Reasonable => 1
    case Urgent => 2
    case Immediate => 3
  }

  /** The higher of two levels. */
  function AtLeast(a: Aggressiveness, floor: Aggressiveness): (r: Aggressiveness)
    ensures Ordinal(a) <= Ordinal(r) && Ordinal(floor) <= Ordinal(r)
    ensures r == a || r == floor
  {
    if Ordinal(a) < Ordinal(floor) then floor else a
  }

  /** Where an allocation point's memory currently lives. */
  datatype AllocationStatus = Undefined | Host | Device | Delayed | Deallocated | Constant
}

=== FILE: placement.dfy ===
/**
  Initial placement of a new allocation: the explicit-location allocator,
  which accepts only host or device, and the memory-model dispatch in front
  of it.
 */
module Placement {
  import opened Enums
  import opened Tracking

  /**
    How the new point's native buffer is obtained: host placement wraps the
    existing host memory of the data buffer, device placement allocates a
    fresh buffer with both host and device sides.
   */
  datatype Backing = WrapsHostBuffer | FreshHostAndDevice

  datatype NewPoint = NewPoint(backing: Backing, bytes: int)

  /** Allocation at an explicitly requested location. */
  function AllocateAt(location: AllocationStatus, bytes: int): (r: Result<NewPoint>)
    ensures r.Ok? <==> location == Host || location == Device
    ensures r.Ok? ==> r.value.bytes == bytes
    ensures r.Ok? ==> (r.value.backing == WrapsHostBuffer <==> location == Host)
    ensures r.Err? ==> r.error == UnsupportedOperation(UnableToAllocate)
  {
    match location
    case Host => Ok(NewPoint(WrapsHostBuffer, bytes))
    case Device => Ok(NewPoint(FreshHostAndDevice, bytes))
    case _ => Err(UnsupportedOperation(UnableToAllocate))
  }

  /**
    Allocation at the location the memory model chooses. `initialLocation`
    is what the memory handler reports as its initial location. No point is
    produced (`Ok(None)`) when the model is neither immediate nor delayed.
   */
  function AllocateMemory(c: Configuration, initialLocation: AllocationStatus, bytes: int): (r: Result<Option<NewPoint>>)
    ensures c.memoryModel == Some(MemoryModel.Delayed) ==> r == Ok(Some(NewPoint(WrapsHostBuffer, bytes)))
    ensures c.memoryModel == Some(MemoryModel.Immediate) ==>
              && (r.Ok? <==> initialLocation == Host || initialLocation == Device)
              && (r.Ok? ==> r.value.Some? && r.value.value.bytes == bytes)
              && (r.Err? ==> r.error == UnsupportedOperation(UnableToAllocate))
    ensures c.memoryModel.None? ==> r == Ok(None)
  {
    if c.memoryModel == Some(MemoryModel.Immediate) then
      Lift(AllocateAt(initialLocation, bytes))
    else if c.memoryModel == Some(MemoryModel.Delayed) then
      Lift(AllocateAt(Host, bytes))
    else
      Ok(None)
  }

  function Lift(r: Result<NewPoint>): Result<Option<NewPoint>>
  {
    match r
    case Ok(p) => Ok(Some(p))
    case Err(e) => Err(e)
  }

  /** Under the delayed model the handler's initial location has no influence. */
  lemma DelayedIgnoresInitialLocation(c: Configuration, l1: AllocationStatus, l2: AllocationStatus, bytes: int)
    requires c.memoryModel == Some(MemoryModel.Delayed)
    ensures AllocateMemory(c, l1, bytes) == AllocateMemory(c, l2, bytes)
    ensures AllocateMemory(c, l1, bytes).Ok?
  {
  }

  /**
    Under the immediate model, allocation is exactly explicit allocation at
    the handler's initial location: same point, same error.
   */
  lemma ImmediateFollowsHandler(c: Configuration, initialLocation: AllocationStatus, bytes: int)
    requires c.memoryModel == Some(MemoryModel.Immediate)
    ensures AllocateAt(initialLocation, bytes).Ok? ==>
              AllocateMemory(c, initialLocation, bytes) == Ok(Some(AllocateAt(initialLocation, bytes).value))
    ensures AllocateAt(initialLocation, bytes).Err? ==>
              AllocateMemory(c, initialLocation, bytes) == Err(AllocateAt(initialLocation, bytes).error)
  {
  }

  /** A point is produced whenever the model is set and the target is allocatable. */
  lemma ModelledAllocationPlacement(c: Configuration, initialLocation: AllocationStatus, bytes: int)
    requires c.memoryModel.Some?
    requires AllocateMemory(c, initialLocation, bytes).Ok?
    ensures AllocateMemory(c, initialLocation, bytes).value.Some?
    ensures var p := AllocateMemory(c, initialLocation, bytes).value.value;
            p.backing == FreshHostAndDevice <==> c.memoryModel == Some(MemoryModel.Immediate) && initialLocation == Device
  {
    if c.memoryModel.value == MemoryModel.Immediate {
      ImmediateFollowsHandler(c, initialLocation, bytes);
    } else {
      DelayedIgnoresInitialLocation(c, initialLocation, Host, bytes);
    }
  }
}

=== FILE: policy.dfy ===
/**
  The pure decisions of the two collector loops: how far aggressiveness is
  escalated under memory pressure, when a scan is skipped, how long a loop
  sleeps, and the access-frequency threshold derived from aggressiveness.
 */
module Policy {
  import opened Enums

  const HostObjectCeiling: int := 500000
  const DeviceObjectCeiling: int := 100000
  const HostLowWater: int := 5000
  const DeviceLowWater: int := 500
  const HostSleepFloor: int := 10000
  const DeviceSleepFloor: int := 5000
  /** Milliseconds since the last scan within which a lightly loaded loop skips. */
  const RecheckWindow: int := 30000

  /** `memory` exceeds `fraction` of `cap`; the Java code compares in double precision, here exactly. */
  predicate Above(memory: int, cap: int, fraction: real)
  {
    memory as real > cap as real * fraction
  }

  predicate Below(memory: int, cap: int, fraction: real)
  {
    (memory as real) < cap as real * fraction
  }

  /**
    The least level the current load demands: immediate past 85% of the cap,
    urgent past 75% of the cap or the object ceiling, otherwise none.
   */
  function PressureFloor(objects: int, memory: int, cap: int, ceiling: int): Aggressiveness
  {
    if Above(memory, cap, 0.85) then Aggressiveness.Immediate
    else if objects > ceiling || Above(memory, cap, 0.75) then Urgent
    else Peaceful
  }

  /**
    The level a collector round actually uses, starting from the configured
    one: raised to urgent under pressure if below it, then forced to
    immediate past 85% of the cap.
   */
  function Escalate(configured: Aggressiveness, objects: int, memory: int, cap: int, ceiling: int): (r: Aggressiveness)
    ensures r == AtLeast(configured, PressureFloor(objects, memory, cap, ceiling))
    ensures Ordinal(configured) <= Ordinal(r)
    ensures Above(memory, cap, 0.85) ==> r == Aggressiveness.Immediate
    ensures (objects > ceiling || Above(memory, cap, 0.75)) ==> Ordinal(Urgent) <= Ordinal(r)
    ensures !Above(memory, cap, 0.85) && Ordinal(Urgent) <= Ordinal(configured) ==> r == configured
    ensures !Above(memory, cap, 0.75) && !Above(memory, cap, 0.85) && objects <= ceiling ==> r == configured
  {
    var raised :=
      if (objects > ceiling || Above(memory, cap, 0.75)) && Ordinal(configured) < Ordinal(Urgent)
      then Urgent else configured;
    if Above(memory, cap, 0.85) then Aggressiveness.Immediate else raised
  }

  /** More load never lowers the escalated level (cap and ceiling fixed). */
  lemma EscalateMonotoneInLoad(configured: Aggressiveness, o1: int, m1: int, o2: int, m2: int, cap: int, ceiling: int)
    requires o1 <= o2 && m1 <= m2
    ensures Ordinal(Escalate(configured, o1, m1, cap, ceiling)) <= Ordinal(Escalate(configured, o2, m2, cap, ceiling))
  {
  }

  /** A higher configured level never yields a lower escalated level. */
  lemma EscalateMonotoneInConfigured(c1: Aggressiveness, c2: Aggressiveness, objects: int, memory: int, cap: int, ceiling: int)
    requires Ordinal(c1) <= Ordinal(c2)
    ensures Ordinal(Escalate(c1, objects, memory, cap, ceiling)) <= Ordinal(Escalate(c2, objects, memory, cap, ceiling))
  {
  }

  /**
    A collector round skips its scan exactly when memory is under a quarter
    of the cap, the object count is under the low-water mark, and the last
    scan finished less than the recheck window ago.
   */
  function SkipScan(memory: int, objects: int, cap: int, lowWater: int, lastCheck: int, now: int): (skip: bool)
    ensures skip <==> 4 * memory < cap && objects < lowWater && now - lastCheck < RecheckWindow
    ensures skip && cap >= 0 ==> !Above(memory, cap, 0.75) && !Above(memory, cap, 0.85)
  {
    Below(memory, cap, 0.25) && objects < lowWater && lastCheck > now - RecheckWindow
  }

  /**
    A round that skips its scan is also one that does not escalate: the
    skip region lies entirely below both pressure thresholds.
   */
  lemma SkippedRoundKeepsConfiguredLevel(configured: Aggressiveness, objects: int, memory: int, cap: int,
                                         lowWater: int, ceiling: int, lastCheck: int, now: int)
    requires cap >= 0 && lowWater <= ceiling
    requires SkipScan(memory, objects, cap, lowWater, lastCheck, now)
    ensures Escalate(configured, objects, memory, cap, ceiling) == configured
  {
  }

  /** A round forced to immediate never skips, for a non-negative cap. */
  lemma ImmediateRoundNeverSkips(memory: int, objects: int, cap: int, lowWater: int, lastCheck: int, now: int)
    requires cap >= 0 && Above(memory, cap, 0.85)
    ensures !SkipScan(memory, objects, cap, lowWater, lastCheck, now)
  {
  }

  /** Once the recheck window has elapsed, a round scans whatever the load. */
  lemma StaleCheckForcesScan(memory: int, objects: int, cap: int, lowWater: int, lastCheck: int, now: int)
    requires now - lastCheck >= RecheckWindow
    ensures !SkipScan(memory, objects, cap, lowWater, lastCheck, now)
  {
  }

  /** The sleep before each round: the configured minimum TTL, but never less than the loop's floor. */
  function SleepInterval(minimumTTL: int, floor: int): (r: int)
    ensures r >= minimumTTL && r >= floor
    ensures r == minimumTTL || r == floor
  {
    if minimumTTL >= floor then minimumTTL else floor
  }

  /** The divisor of the threshold formula: the number of levels minus the ordinal. */
  function Divisor(a: Aggressiveness): (d: nat)
    ensures 1 <= d <= AggressivenessCount
    ensures d == 1 <==> a == Aggressiveness.Immediate
  {
    AggressivenessCount - Ordinal(a)
  }

  /**
    The access-frequency threshold for a level: the average divided by the
    divisor. For a non-negative average it lies between a quarter of the
    average and the average itself.
   */
  function ReclaimThreshold(average: real, a: Aggressiveness): (t: real)
    ensures average >= 0.0 ==> average / (AggressivenessCount as real) <= t <= average
    ensures t * (Divisor(a) as real) == average
  {
    average / (Divisor(a) as real)
  }

  /**
    For a non-negative average the threshold never falls as the level rises:
    the divisor shrinks, so a more aggressive level sets a higher bar.
   */
  lemma ThresholdNonDecreasing(average: real, a: Aggressiveness, b: Aggressiveness)
    requires average >= 0.0 && Ordinal(a) <= Ordinal(b)
    ensures ReclaimThreshold(average, a) <= ReclaimThreshold(average, b)
  {
  }

  /** For a positive average the threshold rises strictly with the level. */
  lemma ThresholdStrictlyIncreasing(average: real, a: Aggressiveness, b: Aggressiveness)
    requires average > 0.0 && Ordinal(a) < Ordinal(b)
    ensures ReclaimThreshold(average, a) < ReclaimThreshold(average, b)
  {
  }
}

=== FILE: reclaim.dfy ===
/**
  Transitions of the tracking map: releasing a point, purging a host
  object, the per-entry decisions of the host and device scans, and the
  write-once configuration guard.
 */
module Reclaim {
  import opened Enums
  import opened Tracking

  /** A transition's new state, the point as it ends up, and the calls it made. */
  datatype Release = Release(state: AllocatorState, point: Point, effects: seq<Effect>)

  datatype Transition = Transition(state: AllocatorState, effects: seq<Effect>)

  /** The number of provider `free` calls in a call log. */
  function FreeCalls(effects: seq<Effect>): (n: nat)
    ensures n == 0 <==> forall i :: 0 <= i < |effects| ==> !effects[i].ProviderFree?
  {
    if |effects| == 0 then 0
    else (if effects[0].ProviderFree? then 1 else 0) + FreeCalls(effects[1..])
  }

  /**
    Release the memory of `p`, then stop tracking its id. A device point is
    freed on the device; if it also has a host pointer it is then marked
    host, freed again and forgotten by the device side. Any other point is
    freed and forgotten by the host side only if it has a host pointer.
    The id leaves the tracking map only after all provider and handler calls.
   */
  function FreeMemory(s: AllocatorState, p: Point): (r: Release)
    ensures p.objectId !in r.state.allocations
    ensures r.state.allocations.Keys == s.allocations.Keys - {p.objectId}
    ensures forall id :: id in r.state.allocations ==> r.state.allocations[id] == s.allocations[id]
    ensures r.state.configuration == s.configuration && r.state.wasInitialised == s.wasInitialised
    ensures r.point.objectId == p.objectId && r.point.hasHostPointer == p.hasHostPointer
    ensures r.point.bufferAlive == p.bufferAlive
    ensures p.status == Device && p.hasHostPointer ==>
              r.point.status == Host
              && r.effects == [ProviderFree(p.objectId, Device), ProviderFree(p.objectId, Host),
                               HandlerForget(p.objectId, Device), Untrack(p.objectId)]
    ensures p.status == Device && !p.hasHostPointer ==>
              r.point.status == Device && r.effects == [ProviderFree(p.objectId, Device), Untrack(p.objectId)]
    ensures p.status != Device && p.hasHostPointer ==>
              r.point == p
              && r.effects == [ProviderFree(p.objectId, p.status), HandlerForget(p.objectId, Host), Untrack(p.objectId)]
    ensures p.status != Device && !p.hasHostPointer ==> r.point == p && r.effects == [Untrack(p.objectId)]
    ensures |r.effects| > 0 && r.effects[|r.effects| - 1] == Untrack(p.objectId)
  {
    var (point, effects) :=
      if p.status == Device then
        if p.hasHostPointer then
          (p.(status := Host),
           [ProviderFree(p.objectId, Device), ProviderFree(p.objectId, Host), HandlerForget(p.objectId, Device)])
        else
          (p, [ProviderFree(p.objectId, Device)])
      else if p.hasHostPointer then
        (p, [ProviderFree(p.objectId, p.status), HandlerForget(p.objectId, Host)])
      else
        (p, []);
    Release(s.(allocations := s.allocations - {p.objectId}), point, effects + [Untrack(p.objectId)])
  }

  /**
    The provider is asked to free the device side exactly when the point is
    on the device, and some host-side memory exactly when it has a host
    pointer; nothing is ever freed twice within one release.
   */
  lemma FreeMemoryFreesEachSideOnce(s: AllocatorState, p: Point)
    ensures var r := FreeMemory(s, p);
            FreeCalls(r.effects) == (if p.status == Device then 1 else 0) + (if p.hasHostPointer then 1 else 0)
    ensures var r := FreeMemory(s, p);
            (exists i :: 0 <= i < |r.effects| && r.effects[i] == ProviderFree(p.objectId, Device)) <==> p.status == Device
  {
  }

  /** Releasing keeps the tracking map well formed. */
  lemma FreeMemoryPreservesWellFormed(s: AllocatorState, p: Point)
    requires WellFormed(s.allocations)
    ensures WellFormed(FreeMemory(s, p).state.allocations)
  {
  }

  /**
    Releasing a point twice leaves the same tracking map as releasing it
    once, but the second release reaches the provider again whenever the
    point held any memory: a device point without a host pointer keeps its
    device status and is freed on the device a second time, and a point
    with a host pointer has its host memory freed and forgotten again.
   */
  lemma FreeMemoryTwice(s: AllocatorState, p: Point)
    ensures var once := FreeMemory(s, p);
            var twice := FreeMemory(once.state, once.point);
            twice.state == once.state
    ensures var once := FreeMemory(s, p);
            var twice := FreeMemory(once.state, once.point);
            FreeCalls(twice.effects) >= 1 <==> p.status == Device || p.hasHostPointer
    ensures var once := FreeMemory(s, p);
            var twice := FreeMemory(once.state, once.point);
            p.status == Device && !p.hasHostPointer ==>
              twice.effects == [ProviderFree(p.objectId, Device), Untrack(p.objectId)]
    ensures var once := FreeMemory(s, p);
            var twice := FreeMemory(once.state, once.point);
            p.status == Device && p.hasHostPointer ==>
              twice.effects == [ProviderFree(p.objectId, Host), HandlerForget(p.objectId, Host), Untrack(p.objectId)]
  {
  }

  /**
    Stop tracking `objectId` first, then ask the handler to purge its host
    memory: the removal precedes the purge, so a concurrent lookup never
    finds an entry whose memory is already gone.
   */
  function PurgeZeroObject(s: AllocatorState, bucketId: int, objectId: ObjectId, copyback: bool): (r: Transition)
    ensures objectId !in r.state.allocations
    ensures r.state.allocations.Keys == s.allocations.Keys - {objectId}
    ensures forall id :: id in r.state.allocations ==> r.state.allocations[id] == s.allocations[id]
    ensures r.state.configuration == s.configuration && r.state.wasInitialised == s.wasInitialised
    ensures r.effects == [Untrack(objectId), HandlerPurgeZero(bucketId, objectId, copyback)]
  {
    Transition(s.(allocations := s.allocations - {objectId}),
               [Untrack(objectId), HandlerPurgeZero(bucketId, objectId, copyback)])
  }

  /** Replace the configuration unless the allocator has been marked initialised. */
  function ApplyConfiguration(s: AllocatorState, c: Configuration): (r: AllocatorState)
    ensures r.allocations == s.allocations && r.wasInitialised == s.wasInitialised
    ensures r.configuration == (if s.wasInitialised then s.configuration else c)
  {
    if !s.wasInitialised then s.(configuration := c) else s
  }

  /** Before initialisation the last configuration applied wins. */
  lemma ApplyConfigurationLastWins(s: AllocatorState, c1: Configuration, c2: Configuration)
    requires !s.wasInitialised
    ensures ApplyConfiguration(ApplyConfiguration(s, c1), c2) == ApplyConfiguration(s, c2)
  {
  }

  /** After initialisation applying any configuration is a no-op. */
  lemma ApplyConfigurationFrozen(s: AllocatorState, c: Configuration)
    requires s.wasInitialised
    ensures ApplyConfiguration(s, c) == s
  {
  }

  /** The function-level operations on allocator state. */
  datatype Op =
    | Configure(c: Configuration)
    | Free(p: Point)
    | PurgeZero(bucketId: int, objectId: ObjectId, copyback: bool)

  function Step(s: AllocatorState, op: Op): AllocatorState
  {
    match op
    case Configure(c) => ApplyConfiguration(s, c)
    case Free(p) => FreeMemory(s, p).state
    case PurgeZero(b, id, cb) => PurgeZeroObject(s, b, id, cb).state
  }

  function Run(s: AllocatorState, ops: seq<Op>): AllocatorState
    decreases |ops|
  {
    if |ops| == 0 then s else Run(Step(s, ops[0]), ops[1..])
  }

  /** No operation sets the initialised flag. */
  lemma {:induction false} RunKeepsInitialisedFlag(s: AllocatorState, ops: seq<Op>)
    ensures Run(s, ops).wasInitialised == s.wasInitialised
    decreases |ops|
  {
    if |ops| > 0 {
      RunKeepsInitialisedFlag(Step(s, ops[0]), ops[1..]);
    }
  }

  /**
    So on a freshly constructed allocator the write-once guard never
    engages: whatever ran before, applying a configuration installs it.
   */
  lemma ConfigurationAlwaysApplies(c0: Configuration, ops: seq<Op>, c: Configuration)
    ensures ApplyConfiguration(Run(InitialState(c0), ops), c).configuration == c
  {
    RunKeepsInitialisedFlag(InitialState(c0), ops);
  }

  /** Every operation keeps the tracking map well formed and never adds an id. */
  lemma {:induction false} RunPreservesWellFormed(s: AllocatorState, ops: seq<Op>)
    requires WellFormed(s.allocations)
    ensures WellFormed(Run(s, ops).allocations)
    ensures Run(s, ops).allocations.Keys <= s.allocations.Keys
    decreases |ops|
  {
    if |ops| > 0 {
      var t := Step(s, ops[0]);
      assert WellFormed(t.allocations) && t.allocations.Keys <= s.allocations.Keys;
      RunPreservesWellFormed(t, ops[1..]);
    }
  }

  /** A host entry whose owning buffer is gone. */
  predicate DeadHost(m: map<ObjectId, Point>, id: ObjectId)
  {
    id in m && m[id].status == Host && !m[id].bufferAlive
  }

  /** A host entry whose owning buffer is still reachable. */
  predicate LiveHost(m: map<ObjectId, Point>, id: ObjectId)
  {
    id in m && m[id].status == Host && m[id].bufferAlive
  }

  /** A device entry whose owning buffer is gone. */
  predicate DeadDevice(m: map<ObjectId, Point>, id: ObjectId)
  {
    id in m && m[id].status == Device && !m[id].bufferAlive
  }

  /** Number of ids in `ids` naming a host entry that is still reachable. */
  function LiveHostCount(m: map<ObjectId, Point>, ids: seq<ObjectId>): nat
  {
    if |ids| == 0 then 0
    else LiveHostCount(m, ids[..|ids| - 1]) + (if LiveHost(m, ids[|ids| - 1]) then 1 else 0)
  }

  /** Number of ids in `ids` naming a tracked entry whose owning buffer is reachable. */
  function AliveCount(m: map<ObjectId, Point>, ids: seq<ObjectId>): nat
  {
    if |ids| == 0 then 0
    else AliveCount(m, ids[..|ids| - 1]) + (if ids[|ids| - 1] in m && m[ids[|ids| - 1]].bufferAlive then 1 else 0)
  }

  /**
    The outcome of a scan: the state it leaves, the calls it made, the
    survivor count it reports, and either the freed size or the error it
    failed with.
   */
  datatype Scan = Scan(state: AllocatorState, effects: seq<Effect>, survivors: nat, outcome: Result<int>)

  /**
    Scan the host tracking ids of one bucket. Ids no longer tracked and
    points not on the host are passed over; host points whose buffer is
    reachable survive. The first host point whose buffer is gone is purged
    and the scan then fails, since that path is unfinished. A completed
    scan frees nothing and reports size 0.
   */
  method SeekUnusedZero(s: AllocatorState, bucketId: int, trackingPoints: seq<ObjectId>) returns (r: Scan)
    ensures r.outcome.Ok? <==> forall i :: 0 <= i < |trackingPoints| ==> !DeadHost(s.allocations, trackingPoints[i])
    ensures r.outcome.Ok? ==>
              && r.state == s && r.effects == [] && r.outcome.value == 0
              && r.survivors == LiveHostCount(s.allocations, trackingPoints)
    ensures r.outcome.Err? ==>
              && r.outcome.error == UnsupportedOperation(Unimplemented)
              && exists k :: 0 <= k < |trackingPoints| && DeadHost(s.allocations, trackingPoints[k])
                   && (forall j :: 0 <= j < k ==> !DeadHost(s.allocations, trackingPoints[j]))
                   && r.state == s.(allocations := s.allocations - {trackingPoints[k]})
                   && r.effects == [Untrack(trackingPoints[k]), HandlerPurgeZero(bucketId, trackingPoints[k], false)]
                   && r.survivors == LiveHostCount(s.allocations, trackingPoints[..k])
    ensures forall id :: id in s.allocations && s.allocations[id].bufferAlive ==>
              id in r.state.allocations && r.state.allocations[id] == s.allocations[id]
    ensures r.state.allocations.Keys <= s.allocations.Keys
    ensures r.state.configuration == s.configuration && r.state.wasInitialised == s.wasInitialised
  {
    var survivors := 0;
    var i := 0;
    while i < |trackingPoints|
      invariant 0 <= i <= |trackingPoints|
      invariant forall j :: 0 <= j < i ==> !DeadHost(s.allocations, trackingPoints[j])
      invariant survivors == LiveHostCount(s.allocations, trackingPoints[..i])
    {
      var id := trackingPoints[i];
      assert trackingPoints[..i + 1][..i] == trackingPoints[..i];
      if id in s.allocations {
        var point := s.allocations[id];
        if point.status == Host {
          if !point.bufferAlive {
            var purged := PurgeZeroObject(s, bucketId, id, false);
            return Scan(purged.state, purged.effects, survivors, Err(UnsupportedOperation(Unimplemented)));
          }
          survivors := survivors + 1;
        }
      }
      i := i + 1;
    }
    assert trackingPoints[..i] == trackingPoints;
    return Scan(s, [], survivors, Ok(0));
  }

  /**
    The device scan as the Java code writes it. Every id is looked up without a
    null check, so an id no longer tracked fails the scan. A point whose
    buffer is gone is purged on the device and the scan then fails if it is
    a device point; otherwise it is passed over without being counted.
    The tracking map is never changed.
   */
  method SeekUnusedDeviceAsWritten(s: AllocatorState, threadId: int, deviceId: int, trackingPoints: seq<ObjectId>)
    returns (r: Scan)
    ensures r.state == s
    ensures r.outcome.Ok? <==>
              forall i :: 0 <= i < |trackingPoints| ==>
                trackingPoints[i] in s.allocations && !DeadDevice(s.allocations, trackingPoints[i])
    ensures r.outcome.Ok? ==>
              r.effects == [] && r.outcome.value == 0 && r.survivors == AliveCount(s.allocations, trackingPoints)
    ensures r.outcome.Err? ==>
              exists k :: 0 <= k < |trackingPoints|
                && (forall j :: 0 <= j < k ==>
                      trackingPoints[j] in s.allocations && !DeadDevice(s.allocations, trackingPoints[j]))
                && r.survivors == AliveCount(s.allocations, trackingPoints[..k])
                && if trackingPoints[k] !in s.allocations then
                     r.outcome.error == NullPointer(trackingPoints[k]) && r.effects == []
                   else
                     DeadDevice(s.allocations, trackingPoints[k])
                     && r.outcome.error == UnsupportedOperation(Unimplemented)
                     && r.effects == [HandlerPurgeDevice(threadId, deviceId, trackingPoints[k], false)]
  {
    var survivors := 0;
    var i := 0;
    while i < |trackingPoints|
      invariant 0 <= i <= |trackingPoints|
      invariant forall j :: 0 <= j < i ==>
                  trackingPoints[j] in s.allocations && !DeadDevice(s.allocations, trackingPoints[j])
      invariant survivors == AliveCount(s.allocations, trackingPoints[..i])
    {
      var id := trackingPoints[i];
      assert trackingPoints[..i + 1][..i] == trackingPoints[..i];
      if id !in s.allocations {
        return Scan(s, [], survivors, Err(NullPointer(id)));
      }
      var point := s.allocations[id];
      if !point.bufferAlive {
        if point.status == Device {
          return Scan(s, [HandlerPurgeDevice(threadId, deviceId, id, false)], survivors,
                      Err(UnsupportedOperation(Unimplemented)));
        }
      } else {
        survivors := survivors + 1;
      }
      i := i + 1;
    }
    assert trackingPoints[..i] == trackingPoints;
    return Scan(s, [], survivors, Ok(0));
  }

  /**
    The device scan with the missing-entry check the host scan has: ids no
    longer tracked are passed over. Otherwise as written.
   */
  method SeekUnusedDevice(s: AllocatorState, threadId: int, deviceId: int, trackingPoints: seq<ObjectId>)
    returns (r: Scan)
    ensures r.state == s
    ensures r.outcome.Ok? <==> forall i :: 0 <= i < |trackingPoints| ==> !DeadDevice(s.allocations, trackingPoints[i])
    ensures r.outcome.Ok? ==>
              r.effects == [] && r.outcome.value == 0 && r.survivors == AliveCount(s.allocations, trackingPoints)
    ensures r.outcome.Err? ==>
              && r.outcome.error == UnsupportedOperation(Unimplemented)
              && exists k :: 0 <= k < |trackingPoints| && DeadDevice(s.allocations, trackingPoints[k])
                   && (forall j :: 0 <= j < k ==> !DeadDevice(s.allocations, trackingPoints[j]))
                   && r.effects == [HandlerPurgeDevice(threadId, deviceId, trackingPoints[k], false)]
                   && r.survivors == AliveCount(s.allocations, trackingPoints[..k])
  {
    var survivors := 0;
    var i := 0;
    while i < |trackingPoints|
      invariant 0 <= i <= |trackingPoints|
      invariant forall j :: 0 <= j < i ==> !DeadDevice(s.allocations, trackingPoints[j])
      invariant survivors == AliveCount(s.allocations, trackingPoints[..i])
    {
      var id := trackingPoints[i];
      assert trackingPoints[..i + 1][..i] == trackingPoints[..i];
      if id in s.allocations {
        var point := s.allocations[id];
        if !point.bufferAlive {
          if point.status == Device {
            return Scan(s, [HandlerPurgeDevice(threadId, deviceId, id, false)], survivors,
                        Err(UnsupportedOperation(Unimplemented)));
          }
        } else {
          survivors := survivors + 1;
        }
      }
      i := i + 1;
    }
    assert trackingPoints[..i] == trackingPoints;
    return Scan(s, [], survivors, Ok(0));
  }

  /**
    A device tracking id that is no longer in the map: the scan as written
    fails with a null dereference, the corrected scan completes.
   */
  method MissingDeviceEntryCounterexample() returns (asWritten: Scan, corrected: Scan)
    ensures asWritten.outcome == Err(NullPointer(7))
    ensures corrected.outcome == Ok(0) && corrected.state == asWritten.state
  {
    var c := Configuration(Some(MemoryModel.Immediate), 0, 0, 0, Reasonable, Reasonable);
    var s := InitialState(c);
    asWritten := SeekUnusedDeviceAsWritten(s, 0, 0, [7]);
    corrected := SeekUnusedDevice(s, 0, 0, [7]);
  }
}

=== FILE: tracking.dfy ===
/**
  The allocator's state: its configuration, the write-once flag guarding it,
  and the tracking map from object id to allocation point. Calls the
  allocator makes into its memory handler and memory provider are not
  executed; they are recorded, together with removals from the tracking
  map, as an ordered log of `Effect`s.
 */
module Tracking {
  import opened Enums

  datatype Option<+T> = None | Some(value: T)

  datatype AllocatorError =
    | UnsupportedOperation(message: string)
    | NullPointer(objectId: ObjectId)

  datatype Result<+T> = Ok(value: T) | Err(error: AllocatorError)

  /** Message of the exception thrown when an explicit location cannot be allocated. */
  const UnableToAllocate: string := "Unable to allocate memory."

  /** Message of the exception thrown by the unfinished reclamation paths. */
  const Unimplemented: string := "Pew-pew"

  type ObjectId = int

  /**
    The part of an allocation point the allocator's decisions read: its
    status, whether a host pointer is attached, and whether the owning
    buffer is still reachable (the weak back-reference is non-null).
   */
  datatype Point = Point(objectId: ObjectId, status: AllocationStatus, hasHostPointer: bool, bufferAlive: bool)

  /** Initial-placement policy, an enum nested in the configuration. */
  datatype MemoryModel = Immediate | Delayed

  /** A null memory model is `None`. Caps and the TTL are Java longs, kept unbounded here. */
  datatype Configuration = Configuration(
    memoryModel: Option<MemoryModel>,
    maximumZeroAllocation: int,
    maximumDeviceAllocation: int,
    minimumTTLMilliseconds: int,
    hostDeallocAggressiveness: Aggressiveness,
    gpuDeallocAggressiveness: Aggressiveness)

  datatype AllocatorState = AllocatorState(
    configuration: Configuration,
    wasInitialised: bool,
    allocations: map<ObjectId, Point>)

  /**
    One step the allocator takes outside its pure decisions: a call into the
    memory provider or memory handler, or the removal of an id from its own
    tracking map. The log keeps these in the order the Java code performs them.
   */
  datatype Effect =
    | Untrack(objectId: ObjectId)
    | ProviderFree(objectId: ObjectId, statusAtCall: AllocationStatus)
    | HandlerForget(objectId: ObjectId, location: AllocationStatus)
    | HandlerPurgeZero(bucketId: int, objectId: ObjectId, copyback: bool)
    | HandlerPurgeDevice(threadId: int, deviceId: int, objectId: ObjectId, copyback: bool)

  /** The state a freshly constructed allocator starts in: flag down, nothing tracked. */
  function InitialState(c: Configuration): (s: AllocatorState)
    ensures !s.wasInitialised && s.allocations == map[] && s.configuration == c
  {
    AllocatorState(c, false, map[])
  }

  /**
    Every tracked point is filed under its own id and none of them is
    `Deallocated`.
   */
  predicate WellFormed(m: map<ObjectId, Point>)
  {
    forall id :: id in m ==> m[id].objectId == id && m[id].status != Deallocated
  }
}
